=== FILE: README.md ===
# YIC chat bot: dispatch, controller parameters and device whitelist

A Dafny model of the decision and configuration logic of the YIC chat bot:

- **Chat dispatch** (`src/app/api/chat/route.ts`, module `ChatRoute`). This is what
  `POST` does once the intent classifier has answered. The classifier's completion
  comes in as the result of `JSON.parse`, or as absent. An absent completion is
  read as `{}`. Text that fails to parse becomes `{intent: "none"}`. The parsed
  value is then dispatched:
  - `intruder` and `weather_alert` return their fixed three-command scenarios;
  - `system_check` returns a reply with no actions;
  - a truthy `deviceId` with a truthy `action` returns a single-device answer,
    with the device's name looked up in reverse from its id;
  - anything else goes to the chatbot, whose completion is an input.
  The literal text `null` parses fine, but reading `.intent` from it throws. That
  is the one path to the generic 500 answer here.
- **Controller parameter resolution** (`src/services/yic_control.py`, module
  `Controller`). `main()` checks the device and resolves port, baud rate and
  payload. The precedence is: explicit option, then the device's default, then
  the constant 38400 (baud rate only). Parity, byte size and stop bits are
  mapped for the serial port. The result is one JSON line and an exit status.
  Opening and writing the port is not modelled. The exception it may raise is an
  input.
- **Whitelist derivation** (`src/config/devices.ts`, module `Whitelist`). Each
  device of the defaults maps to `{actions: keys of its payloads}`. Module
  `Consistency` connects this to the controller: every whitelisted pair finds a
  payload key in the controller's default lookup.

Shared pieces:
- `Base` holds `Option` and JavaScript/Python truthiness.
- `Objects` models JSON objects and dicts as ordered entry lists (lookup, reverse lookup, keys).
- `Text` holds the first-occurrence `replace`, decimal rendering with its parser, and prefix/suffix predicates.
- `Defaults` gives the shape of `device_defaults.json`.

One consequence worth knowing: the classifier is told to use actions such as
`"on 15"` for sprinklers. The route compares the action with `"on"` exactly, so
such a command reads "Turning off" (`ChatRoute.SingleReplyVerb`).

## Model

| member | source | states |
|---|---|---|
| `ChatRoute.DevicesWellFormed` | src/app/api/chat/route.ts:11-17 | The device map's names are distinct and its ids are distinct. Its names are exactly lights, front_sprinklers, back_sprinklers, security_cameras and alarm, in that order. No name has more than one underscore. |
| `ChatRoute.ReverseLookupExact` | src/app/api/chat/route.ts:120-122 | The id→name lookup returns a name exactly when the map pairs that name with the id, so it is unambiguous. |
| `Objects.KeyOfFindsEntry` | src/app/api/chat/route.ts:120-122 | When values are distinct, `find` over the keys returns the key of the entry that holds the value. |
| `Objects.KeyOf` | src/app/api/chat/route.ts:120-122 | `Object.keys(devices).find(...)` finds nothing exactly when no entry holds the value. What it finds is the key of an entry that holds the value. |
| `ChatRoute.DetectIntent` | src/app/api/chat/route.ts:68-72 | Parsing never throws. Unparsable text becomes `{intent: "none"}`. An absent completion becomes `{}`. Every other parse result is passed on unchanged. |
| `ChatRoute.ReadFields` | src/app/api/chat/route.ts:86-89 | Reading the intent fields fails exactly on `null` (or on the syntax error, which parsing never passes on). An object yields its own fields, and any other non-null value yields a record with all fields undefined. |
| `ChatRoute.Dispatch` | src/app/api/chat/route.ts:88-150 | Scenario, check, single-device and fallback are chosen by their exact conditions, each stated as an if-and-only-if. The single-device answer echoes `deviceId`, `action` and `duration` as given, with `duration` null when absent. |
| `ChatRoute.IntruderScenario` | src/app/api/chat/route.ts:89-98 | `intruder` yields exactly lights/3101, alarm/6101 and security_cameras/5101, all `on`, in that order. |
| `ChatRoute.WeatherScenario` | src/app/api/chat/route.ts:101-111 | `weather_alert` yields exactly lights/3101, front_sprinklers/4101 and back_sprinklers/4102, all `off`, in that order. |
| `ChatRoute.ScenarioPrecedence` | src/app/api/chat/route.ts:89-118 | For the three scenario intents, any device, action or duration fields are ignored. `system_check` returns only its reply, with no actions. |
| `ChatRoute.SingleReplyVerb` | src/app/api/chat/route.ts:118-137 | When the single-device branch is taken, the answer's reply starts "✅ Turning on " exactly when the action is `"on"`. Every other action string starts "✅ Turning off ". |
| `ChatRoute.SingleReplyDuration` | src/app/api/chat/route.ts:118-137 | When the single-device branch is taken, the answer's reply ends in " minutes" exactly when the duration is truthy, that is present and non-zero. The suffix is then " for <duration in decimal> minutes". |
| `Text.DecimalRoundTrip` | src/app/api/chat/route.ts:129 | The decimal rendering of the duration parses back to the same integer. |
| `Text.Decimal` | src/app/api/chat/route.ts:129 | The rendering is canonical, as `${n}` is: a minus sign exactly for negative numbers, no leading zeros, and "0" only for zero. |
| `ChatRoute.SingleReplyNamesDevice` | src/app/api/chat/route.ts:118-137 | When the single-device branch is taken with a mapped id, the answer's reply names the device with its underscore replaced by a space. |
| `ChatRoute.SingleReplyText` | src/app/api/chat/route.ts:118-137 | For a mapped id, the single-device reply is exactly "✅ ", the verb, a space and the device's name with its underscore replaced by a space, followed by " for <duration> minutes" when the duration is truthy and by nothing otherwise. |
| `ChatRoute.DisplayNameNoUnderscore` | src/app/api/chat/route.ts:125 | No name a reply can show contains an underscore. |
| `Text.ReplaceFirst` | src/app/api/chat/route.ts:125 | `replace` keeps the length and leaves a string without the character unchanged. Every position either keeps its character or had the pattern character and now holds the replacement. |
| `Text.ReplaceFirstClears` | src/app/api/chat/route.ts:125 | Replacing the first occurrence of a character removes it completely iff it occurred at most once. |
| `Text.ReplaceFirstOnlyFirst` | src/app/api/chat/route.ts:125 | `replace` with a one-character pattern rewrites a position exactly when it holds the character and no earlier position does. |
| `ChatRoute.UnmappedDeviceAnswered` | src/app/api/chat/route.ts:118-137 | An id outside the map is not rejected. The single-device answer is still given, echoing id and action, and the device is shown as "undefined". |
| `ChatRoute.UnmappedReplyText` | src/app/api/chat/route.ts:118-137 | For an id outside the map, the single-device reply is exactly "✅ ", the verb and " undefined", followed by the same duration suffix. |
| `ChatRoute.ChatReply` | src/app/api/chat/route.ts:149 | The chatbot reply is never empty. It is the completion when the completion is non-empty, and "…" otherwise. |
| `ChatRoute.ParseFallbackReachesChatbot` | src/app/api/chat/route.ts:68-72 | Missing, unparsable and non-object classifier output all fall through to the chatbot. Only `null` gives the 500 answer. An empty chatbot completion becomes "…". |
| `ChatRoute.ChatbotOnlyOnFallback` | src/app/api/chat/route.ts:140-150 | The chatbot's completion affects the response only when the response is the chatbot's answer. |
| `ChatRoute.Post` | src/app/api/chat/route.ts:83-150 | The 500 answer is given exactly for `null` classifier output. For a parsed object, the response is the dispatched answer, or the chatbot's reply when dispatch falls through. A dispatched answer is never the fallback marker. |
| `Controller.ParseParity` | src/services/yic_control.py:25 | Only the letters N, E, O, M and S are accepted, and each accepted letter maps back to itself. |
| `Controller.ParityLetterRoundTrip` | src/services/yic_control.py:50-52 | Every parity mode is selected by its letter, so letters and modes correspond one to one. |
| `Controller.SelectBytesize` | src/services/yic_control.py:49 | A byte size of 8 selects EIGHTBITS. Any other value is passed through unchanged. |
| `Controller.SelectStopbits` | src/services/yic_control.py:53 | Exactly 1 selects one stop bit. Any other value selects two. |
| `Controller.ConfigFor` | src/services/yic_control.py:34 | A known device gets its own entry from the defaults. A device missing from the defaults gets the empty configuration. |
| `Controller.DefaultPayload` | src/services/yic_control.py:40 | A default payload is found exactly when the device has `payloads` with the action as a key, and it is the value stored under that key. |
| `Objects.GetFound` | src/services/yic_control.py:34-40 | A value found by lookup is the one stored under the key that was looked up. |
| `Controller.Resolve` | src/services/yic_control.py:29-55 | Usage error exactly for a parity outside the choices. Resolution succeeds exactly when the parity is valid, the device is known or both `--port` and `--payload` are given, and some payload (`--payload` or the default) is non-empty. The resolved payload is never empty. The parity is the one the letter names, and the byte size, stop bits and 1-second timeout are the ones selected from the arguments. |
| `Controller.UnknownDeviceNeedsOverrides` | src/services/yic_control.py:29-32 | A device absent from the defaults is refused with "Unknown device …" exactly when `--port` or `--payload` is missing or empty. With both given, it resolves. |
| `Controller.PortPrecedence` | src/services/yic_control.py:35 | The port is `--port` if given. Otherwise it is the default port of a known device, which may be absent. |
| `Controller.BaudratePrecedence` | src/services/yic_control.py:36 | The baud rate is a non-zero `--baud`, else the device's default baud rate, else 38400. |
| `Controller.PayloadPrecedence` | src/services/yic_control.py:38-40 | The payload is `--payload` if given. Otherwise it is the known device's non-empty default payload for the action. |
| `Controller.NoPayloadRejection` | src/services/yic_control.py:38-44 | "No payload for action …" is returned exactly when the device is known, `--payload` is missing or empty, and the default payload is missing or empty. |
| `Controller.RefusalTouchesNoPort` | src/services/yic_control.py:29-47 | A refusal does not depend on the port's behaviour, so no write is attempted. It never exits 0. |
| `Controller.RefusalLineShape` | src/services/yic_control.py:29-44 | A refusal prints exactly `{ok: false, error}` and exits 1. |
| `Controller.Report` | src/services/yic_control.py:57-64 | After resolution there is always a line. Its `ok` field agrees with exit status 0, and it is true exactly when the port did not raise. |
| `Controller.Run` | src/services/yic_control.py:17-64 | A usage error prints nothing and exits 2, and that is the only way to print nothing. A refusal prints `{ok: false, error}` and exits 1. A resolved command prints the outcome line of the port attempt. Whenever a line is printed, `ok` is true exactly when the exit status is 0. |
| `Controller.SuccessLine` | src/services/yic_control.py:57-59 | Success exits 0 and echoes device, action, resolved port, baud rate and payload. |
| `Controller.PortFailureLine` | src/services/yic_control.py:60-64 | A port failure exits 1 with the exception text and the same five echoed fields. |
| `Controller.ReportKeys` | src/services/yic_control.py:57-63 | The line's keys, in order, are `ok`, then `error` on failure, then device, action, port, baudrate and payload. |
| `Controller.EchoFields` | src/services/yic_control.py:57-58 | The five echoed fields can be read back by name with the resolved values. |
| `Controller.FullOverridesIgnoreDefaults` | src/services/yic_control.py:34-40 | With `--port`, `--payload` and a non-zero `--baud` all given, the outcome does not depend on the defaults. |
| `Whitelist.Derive` | src/config/devices.ts:8-13 | The whitelist exists exactly when every device has `payloads`. It has exactly the defaults' device names, in order. Each device's actions are its payload keys, in order. |
| `Whitelist.PermitsIffPayloadKey` | src/config/devices.ts:11 | The whitelist permits a (device, action) pair exactly when the defaults hold a payload key for it. No action is added and none dropped. |
| `Consistency.WhitelistedPairResolves` | src/services/yic_control.py:29-40 | A whitelisted pair names a known device whose default-payload lookup finds a key. If that payload is non-empty, the controller resolves without overrides and sends it. |

## Left out

- The language-model calls (`groq.chat.completions.create`, route.ts:62-65 and 141-147) are external services. Their completions are inputs: the classifier's as the outcome of `JSON.parse`, the chatbot's as text.
- The HTTP envelope is framework plumbing. This covers `req.json()`, `NextResponse` and status codes. The 500 answer appears only as `InternalError`, on the one path the modelled logic can reach (`null` classifier output).
- JSON field values of unexpected types (a numeric `deviceId`, a string `duration`) are not modelled. Fields are strings and `duration` is an integer.
- Durations are integers. JavaScript's rendering of non-integers and of magnitudes from 10^21 up (exponent notation) is not modelled.
- Text.Decimal: durations are exact integers and every digit is written. JavaScript numbers are doubles: `JSON.parse` rounds integers above 2^53, and `${n}` writes only the shortest digits that identify the double, padded with zeros (`${2**64}` is "18446744073709552000"). So above 2^53 the modelled reply text can differ from the real one.
- JavaScript lists integer-like property keys first, in ascending order. This is not modelled: objects are taken in their enumeration order.
- Repeated keys in any object of the defaults file are not modelled. This covers a repeated device name and a repeated action inside a device's `payloads`. Python's `json.load` keeps the last value, while the model's lookup takes the first. JavaScript's `Object.keys` lists such a key once, while `Whitelist.Derive` lists it as often as it appears. Real tables have distinct keys.
- Null-valued fields in the defaults file are not modelled. A field is either absent or holds a value of its type. For example, `"baudrate": null` makes `cfg.get("baudrate", 38400)` return `None` (yic_control.py:36). The model reads it as absent, so `Controller.BaudratePrecedence` gives 38400 there.
- Opening, encoding and writing the serial port (yic_control.py:46-56) is hardware I/O. Whether it raised, and the exception text, is an input. So is an ASCII-encoding failure of the payload.
- `load_defaults` (yic_control.py:4-15) is file I/O. The defaults table is a parameter. `device_defaults.json` is not part of this model.
- Argparse mechanics are not modelled beyond the `--parity` choices (exit 2, nothing on stdout). This covers required options, integer conversion and help output.
- Stop bits are compared with 1.0 only. No floating-point arithmetic is involved.
- The whitelist derivation is a pure function of the defaults, so it leaves them unchanged by construction. There is no separate member for this.
- `src/services/YICTEST.py` and `src/services/lights.ts` are left out. Both are fixed serial writes with no decision logic.
- `yictest/src/app/page.tsx` is left out. It is UI state with React hooks and timers.
- `yictest/src/app/api/chat/route.ts` is left out. It is a thin wrapper over the chat model.
- The commented-out implementation in route.ts (lines 161-253) is left out. It is not live code.

=== FILE: base.dfy ===
/** Optional values and the truthiness rules that JavaScript and Python share
    for the values this model handles. */
module Base {

  /** A value that may be absent: an undefined property, a JSON null, an
      unset command-line option or a missing dictionary key. */
  datatype Option<+T> = None | Some(value: T) {

    /** The carried value, or `default` when absent. */
    function GetOr(default: T): T {
      match this
      case Some(v) => v
      case None => default
    }
  }

  /** An optional string is truthy when present and non-empty, in both
      JavaScript (`if (x)`, `x || y`) and Python (`not x`, `x or y`). */
  predicate Truthy(o: Option<string>) {
    o.Some? && o.value != ""
  }

  /** An optional integer is truthy when present and non-zero. */
  predicate TruthyInt(o: Option<int>) {
    o.Some? && o.value != 0
  }
}

=== FILE: chat_route.dfy ===
/** The chat endpoint of src/app/api/chat/route.ts once the classifier has
    answered: the parse fallback of `detectIntent` and the branch logic of
    `POST`. The two language-model calls are inputs: the classifier's
    completion as what `JSON.parse` made of it, and the chatbot's completion
    text. */
module ChatRoute {
  import opened Base
  import opened Objects
  import opened Text

  /** Device name -> id in the YIC system (the `devices` map), in declaration order. */
  const Devices: Entries<string> := [
    ("lights", "3101"),
    ("front_sprinklers", "4101"),
    ("back_sprinklers", "4102"),
    ("security_cameras", "5101"),
    ("alarm", "6101")
  ]

  /** The fields `POST` reads from the classifier's JSON. Undefined and null
      fields are None. */
  datatype Intent = Intent(
    intent: Option<string>,
    deviceId: Option<string>,
    action: Option<string>,
    duration: Option<int>)

  /** A value with none of the fields: `{}`, or any JSON value that is neither
      an object nor null. */
  const NoFields := Intent(None, None, None, None)

  /** What the classifier's completion text turned into under `JSON.parse`. */
  datatype ParseOutcome =
    | ParsedObject(fields: Intent)
    | ParsedNull                  // the text `null`
    | ParsedOther                 // a number, string, boolean or array
    | SyntaxError                 // `JSON.parse` threw

  /** One device command of a scenario. */
  datatype Command = Command(device: string, id: string, action: string)

  /** The JSON body `POST` answers with, apart from the chatbot's. */
  datatype Decision =
    | Scenario(reply: string, actions: seq<Command>)
    | Check(reply: string)
    | Single(reply: string, device: string, action: string, duration: Option<int>)
    | Fallback

  /** The whole response. */
  datatype Response =
    | Answer(decision: Decision)  // never Fallback
    | Chat(reply: string)         // the chatbot's answer
    | InternalError               // status 500, `{error: "Something went wrong."}`

  const IntruderReply := "\U{1F6A8} Intruder detected. Turning on lights, alarm, and cameras."
  const WeatherReply := "\U{26A0}\U{FE0F} Weather alert. Turning off lights and sprinklers."
  const CheckReply := "\U{1F50D} Systems nominal"
  const Tick := "\U{2705} "
  const EmptyChatReply := "\U{2026}"

  /** `detectIntent` after the model has answered. An absent completion is
      read as the text `{}`; text `JSON.parse` refuses becomes `{intent: "none"}`. */
  function DetectIntent(content: Option<ParseOutcome>): (v: ParseOutcome)
    ensures !v.SyntaxError?
    ensures content == Some(SyntaxError) ==> v == ParsedObject(Intent(Some("none"), None, None, None))
    ensures content.None? ==> v == ParsedObject(NoFields)
    ensures content.Some? && !content.value.SyntaxError? ==> v == content.value
  {
    match content
    case None => ParsedObject(NoFields)
    case Some(SyntaxError) => ParsedObject(Intent(Some("none"), None, None, None))
    case Some(parsed) => parsed
  }

  /** Reading `intentData.intent` and the other fields: undefined on any
      non-object, a TypeError (None here) on null. */
  function ReadFields(v: ParseOutcome): (r: Option<Intent>)
    ensures r.None? <==> v.ParsedNull? || v.SyntaxError?
    ensures v.ParsedObject? ==> r == Some(v.fields)
    ensures v.ParsedOther? ==> r == Some(NoFields)
  {
    match v
    case ParsedObject(fields) => Some(fields)
    case ParsedOther => Some(NoFields)
    case ParsedNull => None
    case SyntaxError => None
  }

  /** `devices.<name>` for a name of the map. */
  function IdOf(name: string): string
    requires name in Keys(Devices)
  {
    Get(Devices, name).value
  }

  function Step(name: string, action: string): Command
    requires name in Keys(Devices)
  {
    Command(name, IdOf(name), action)
  }

  const IntruderActions: seq<Command> :=
    [Step("lights", "on"), Step("alarm", "on"), Step("security_cameras", "on")]

  const WeatherActions: seq<Command> :=
    [Step("lights", "off"), Step("front_sprinklers", "off"), Step("back_sprinklers", "off")]

  /** `deviceName?.replace("_", " ")` inside a template literal: an unknown
      device reads "undefined". */
  function DisplayName(name: Option<string>): string {
    match name
    case Some(n) => ReplaceFirst(n, '_', ' ')
    case None => "undefined"
  }

  function Verb(action: string): string {
    if action == "on" then "Turning on" else "Turning off"
  }

  /** The " for N minutes" suffix, present when the duration is truthy. */
  function DurationSuffix(duration: Option<int>): string {
    if TruthyInt(duration) then " for " + Decimal(duration.value) + " minutes" else ""
  }

  /** The reply of the single-device branch. */
  function SingleReply(deviceId: string, action: string, duration: Option<int>): string {
    Tick + Verb(action) + " " + DisplayName(KeyOf(Devices, deviceId)) + DurationSuffix(duration)
  }

  /** The intents handled as multi-device scenarios. */
  predicate IsScenarioIntent(intent: Option<string>) {
    intent == Some("intruder") || intent == Some("weather_alert") || intent == Some("system_check")
  }

  /** The branch logic of `POST` after `detectIntent` has returned. */
  function Dispatch(i: Intent): (d: Decision)
    ensures d.Scenario? <==> i.intent == Some("intruder") || i.intent == Some("weather_alert")
    ensures d.Check? <==> i.intent == Some("system_check")
    ensures d.Single? <==> !IsScenarioIntent(i.intent) && Truthy(i.deviceId) && Truthy(i.action)
    ensures d.Single? ==> d.device == i.deviceId.value && d.action == i.action.value && d.duration == i.duration
  {
    if i.intent == Some("intruder") then Scenario(IntruderReply, IntruderActions)
    else if i.intent == Some("weather_alert") then Scenario(WeatherReply, WeatherActions)
    else if i.intent == Some("system_check") then Check(CheckReply)
    else if Truthy(i.deviceId) && Truthy(i.action) then
      Single(SingleReply(i.deviceId.value, i.action.value, i.duration),
             i.deviceId.value, i.action.value, i.duration)
    else Fallback
  }

  /** `completion.choices[0]?.message?.content || "…"`. */
  function ChatReply(completion: Option<string>): (r: string)
    ensures r != ""
    ensures Truthy(completion) ==> r == completion.value
  {
    if Truthy(completion) then completion.value else EmptyChatReply
  }

  /** `POST` from the classifier's parsed completion and the chatbot's
      completion (only consulted on the fallback path). */
  function Post(classified: Option<ParseOutcome>, chatbot: Option<string>): (r: Response)
    ensures r.Answer? ==> !r.decision.Fallback?
    ensures r == InternalError <==> classified == Some(ParsedNull)
    ensures classified.Some? && classified.value.ParsedObject? ==>
              r == (if Dispatch(classified.value.fields).Fallback? then Chat(ChatReply(chatbot))
                    else Answer(Dispatch(classified.value.fields)))
  {
    match ReadFields(DetectIntent(classified))
    case None => InternalError
    case Some(i) =>
      var d := Dispatch(i);
      if d.Fallback? then Chat(ChatReply(chatbot)) else Answer(d)
  }

  /** The names of the map. */
  const DeviceNames := ["lights", "front_sprinklers", "back_sprinklers", "security_cameras", "alarm"]

  /** No name of the map holds more than one underscore. */
  lemma DeviceNamesUnderscores()
    ensures forall i :: 0 <= i < |Devices| ==> AtMostOnce(Devices[i].0, '_')
  {
    assert AtMostOnce("lights", '_') && AtMostOnce("alarm", '_');
    assert AtMostOnce("front_sprinklers", '_') by {
      assert "front_sprinklers" == "front" + "_" + "sprinklers";
    }
    assert AtMostOnce("back_sprinklers", '_') by {
      assert "back_sprinklers" == "back" + "_" + "sprinklers";
    }
    assert AtMostOnce("security_cameras", '_') by {
      assert "security_cameras" == "security" + "_" + "cameras";
    }
  }

  /** The map's names and ids are pairwise distinct. */
  lemma DevicesDistinct()
    ensures DistinctKeys(Devices)
    ensures DistinctValues(Devices)
  {
    assert "front_sprinklers"[0] != "back_sprinklers"[0];
  }

  /** The map's ids are pairwise distinct, its names too, and no name holds
      more than one underscore. */
  lemma DevicesWellFormed()
    ensures DistinctKeys(Devices)
    ensures DistinctValues(Devices)
    ensures Keys(Devices) == DeviceNames
    ensures forall i :: 0 <= i < |Devices| ==> AtMostOnce(Devices[i].0, '_')
  {
    DevicesDistinct();
    DeviceNamesUnderscores();
  }

  /** The reverse lookup is unambiguous: it yields a name exactly when the
      map pairs that name with the id. */
  lemma ReverseLookupExact(name: string, id: string)
    ensures KeyOf(Devices, id) == Some(name) <==> (name, id) in Devices
  {
    DevicesWellFormed();
    if (name, id) in Devices {
      var i :| 0 <= i < |Devices| && Devices[i] == (name, id);
      KeyOfFindsEntry(Devices, i);
    }
  }

  /** A device found by the reverse lookup is one of the map's names. */
  lemma FoundNameIsMapped(id: string)
    requires KeyOf(Devices, id).Some?
    ensures KeyOf(Devices, id).value in DeviceNames
    ensures (KeyOf(Devices, id).value, id) in Devices
  {
    ReverseLookupExact(KeyOf(Devices, id).value, id);
    DevicesWellFormed();
  }

  /** The name shown in a reply never contains an underscore. */
  lemma DisplayNameNoUnderscore(id: string)
    ensures '_' !in DisplayName(KeyOf(Devices, id))
  {
    if KeyOf(Devices, id).Some? {
      var n := KeyOf(Devices, id).value;
      FoundNameIsMapped(id);
      DevicesWellFormed();
      var i :| 0 <= i < |Devices| && Devices[i] == (n, id);
      ReplaceFirstClears(n, '_', ' ');
    }
  }

  /** The last two characters of the map's names. */
  lemma NameTails(name: string)
    requires name in DeviceNames
    ensures 2 <= |name| && !(name[|name| - 2] == 'e' && name[|name| - 1] == 's')
    ensures name[|name| - 2] != '_' && name[|name| - 1] != '_'
  {
    if name == "lights" {
    } else if name == "front_sprinklers" {
    } else if name == "back_sprinklers" {
    } else if name == "security_cameras" {
    } else {
      assert name == "alarm";
    }
  }

  /** Replacing an underscore that is not among the last two characters
      keeps a name's ending. */
  lemma ShownTail(name: string)
    requires 2 <= |name| && !(name[|name| - 2] == 'e' && name[|name| - 1] == 's')
    requires name[|name| - 2] != '_' && name[|name| - 1] != '_'
    ensures var n := ReplaceFirst(name, '_', ' ');
            2 <= |n| && !EndsWith(n, "es")
  {
    var n := ReplaceFirst(name, '_', ' ');
    assert n[|n| - 2..] == [n[|n| - 2], n[|n| - 1]];
  }

  /** Every name a reply can show has at least two characters and does not
      end in "es". */
  lemma DisplayNameTail(id: string)
    ensures var n := DisplayName(KeyOf(Devices, id));
            2 <= |n| && !EndsWith(n, "es")
  {
    match KeyOf(Devices, id)
    case Some(name) =>
      FoundNameIsMapped(id);
      NameTails(name);
      ShownTail(name);
    case None =>
      assert "undefined"[7..] == "ed";
  }

  /** A reply base that ends in a showable name does not end in " minutes". */
  lemma NameEndsNotInMinutes(prefix: string, id: string)
    ensures !EndsWith(prefix + DisplayName(KeyOf(Devices, id)), " minutes")
  {
    var n := DisplayName(KeyOf(Devices, id));
    DisplayNameTail(id);
    EndsWithTail(prefix, n, "es");
    assert " minutes"[6..] == "es";
    EndsWithTrans(prefix + n, " minutes", "es");
  }

  /** The verb sits right after the tick, whatever follows it. */
  lemma VerbAfterTick(action: string, rest: string)
    ensures StartsWith(Tick + Verb(action) + " " + rest, Tick + "Turning on ") <==> action == "on"
    ensures StartsWith(Tick + Verb(action) + " " + rest, Tick + "Turning off ") <==> action != "on"
  {
    var r := Tick + Verb(action) + " " + rest;
    assert r[..2] == Tick;
    assert r[2..2 + |Verb(action)|] == Verb(action);
    assert r[11] == Verb(action)[9];
    if action == "on" {
      assert r[..13] == Tick + "Turning on ";
    } else {
      assert r[..14] == Tick + "Turning off ";
    }
  }

  /** The reply reads "Turning on" exactly for the action "on"; every other
      action string, recognised or not, reads "Turning off". */
  lemma SingleReplyVerb(i: Intent)
    requires !IsScenarioIntent(i.intent) && Truthy(i.deviceId) && Truthy(i.action)
    ensures Dispatch(i).Single?
    ensures StartsWith(Dispatch(i).reply, Tick + "Turning on ") <==> i.action.value == "on"
    ensures StartsWith(Dispatch(i).reply, Tick + "Turning off ") <==> i.action.value != "on"
  {
    var action := i.action.value;
    var rest := DisplayName(KeyOf(Devices, i.deviceId.value)) + DurationSuffix(i.duration);
    assert Dispatch(i).reply == Tick + Verb(action) + " " + rest;
    VerbAfterTick(action, rest);
  }

  /** The " for N minutes" suffix appears exactly when the duration is
      truthy, and then it carries the duration's decimal rendering. */
  lemma SingleReplyDuration(i: Intent)
    requires !IsScenarioIntent(i.intent) && Truthy(i.deviceId) && Truthy(i.action)
    ensures Dispatch(i).Single?
    ensures EndsWith(Dispatch(i).reply, " minutes") <==> TruthyInt(i.duration)
    ensures TruthyInt(i.duration) ==>
              EndsWith(Dispatch(i).reply, " for " + Decimal(i.duration.value) + " minutes")
  {
    var deviceId, duration := i.deviceId.value, i.duration;
    var prefix := Tick + Verb(i.action.value) + " ";
    var base := prefix + DisplayName(KeyOf(Devices, deviceId));
    var suffix := DurationSuffix(duration);
    assert Dispatch(i).reply == base + suffix;
    if TruthyInt(duration) {
      var digits := " for " + Decimal(duration.value);
      assert suffix == digits + " minutes";
      EndsWithConcat(base, suffix);
      EndsWithConcat(digits, " minutes");
      EndsWithTrans(base + suffix, suffix, " minutes");
    } else {
      assert base + suffix == base;
      NameEndsNotInMinutes(prefix, deviceId);
    }
  }

  /** The single-device branch names the mapped device, its underscore
      turned into a space. */
  lemma SingleReplyNamesDevice(i: Intent, name: string)
    requires !IsScenarioIntent(i.intent) && Truthy(i.deviceId) && Truthy(i.action)
    requires (name, i.deviceId.value) in Devices
    ensures Dispatch(i).Single?
    ensures StartsWith(Dispatch(i).reply, Tick + Verb(i.action.value) + " " + ReplaceFirst(name, '_', ' '))
  {
    SingleReplyText(i, name);
    StartsWithConcat(Tick + Verb(i.action.value) + " " + ReplaceFirst(name, '_', ' '), DurationSuffix(i.duration));
  }

  /** The whole single-device reply for a mapped id: tick, verb, the device's
      name with its underscore turned into a space, then the duration suffix
      and nothing else. */
  lemma SingleReplyText(i: Intent, name: string)
    requires !IsScenarioIntent(i.intent) && Truthy(i.deviceId) && Truthy(i.action)
    requires (name, i.deviceId.value) in Devices
    ensures Dispatch(i).Single?
    ensures Dispatch(i).reply ==
              Tick + Verb(i.action.value) + " " + ReplaceFirst(name, '_', ' ') +
              (if TruthyInt(i.duration) then " for " + Decimal(i.duration.value) + " minutes" else "")
  {
    ReverseLookupExact(name, i.deviceId.value);
  }

  /** The whole single-device reply for an id outside the map. */
  lemma UnmappedReplyText(i: Intent)
    requires !IsScenarioIntent(i.intent) && Truthy(i.deviceId) && Truthy(i.action)
    requires forall k :: 0 <= k < |Devices| ==> Devices[k].1 != i.deviceId.value
    ensures Dispatch(i).Single?
    ensures Dispatch(i).reply ==
              Tick + Verb(i.action.value) + " undefined" +
              (if TruthyInt(i.duration) then " for " + Decimal(i.duration.value) + " minutes" else "")
  {
    assert KeyOf(Devices, i.deviceId.value).None?;
    assert " " + "undefined" == " undefined";
  }

  /** An id outside the map is not refused: the command is still answered,
      echoing the id and action, with the device shown as "undefined". */
  lemma UnmappedDeviceAnswered(i: Intent)
    requires !IsScenarioIntent(i.intent) && Truthy(i.deviceId) && Truthy(i.action)
    requires forall k :: 0 <= k < |Devices| ==> Devices[k].1 != i.deviceId.value
    ensures Dispatch(i).Single?
    ensures Dispatch(i).device == i.deviceId.value && Dispatch(i).action == i.action.value
    ensures StartsWith(Dispatch(i).reply, Tick + Verb(i.action.value) + " undefined")
  {
    UnmappedReplyText(i);
    StartsWithConcat(Tick + Verb(i.action.value) + " undefined", DurationSuffix(i.duration));
  }

  /** The ids the scenarios read from the map. */
  lemma ScenarioIds()
    ensures IdOf("lights") == "3101"
    ensures IdOf("front_sprinklers") == "4101"
    ensures IdOf("back_sprinklers") == "4102"
    ensures IdOf("security_cameras") == "5101"
    ensures IdOf("alarm") == "6101"
  {
    DevicesWellFormed();
    GetFindsEntry(Devices, 0);
    GetFindsEntry(Devices, 1);
    GetFindsEntry(Devices, 2);
    GetFindsEntry(Devices, 3);
    GetFindsEntry(Devices, 4);
  }

  /** `intruder` turns on lights, alarm and cameras, in that order, whatever
      else the classifier said. */
  lemma IntruderScenario(i: Intent)
    requires i.intent == Some("intruder")
    ensures Dispatch(i) == Scenario(IntruderReply, [
              Command("lights", "3101", "on"),
              Command("alarm", "6101", "on"),
              Command("security_cameras", "5101", "on")])
  {
    ScenarioIds();
  }

  /** `weather_alert` turns off lights and both sprinklers, in that order,
      whatever else the classifier said. */
  lemma WeatherScenario(i: Intent)
    requires i.intent == Some("weather_alert")
    ensures Dispatch(i) == Scenario(WeatherReply, [
              Command("lights", "3101", "off"),
              Command("front_sprinklers", "4101", "off"),
              Command("back_sprinklers", "4102", "off")])
  {
    ScenarioIds();
  }

  /** Scenario intents take precedence: the device, action and duration
      fields are ignored, and `system_check` answers with no actions. */
  lemma ScenarioPrecedence(i: Intent)
    requires IsScenarioIntent(i.intent)
    ensures Dispatch(i) == Dispatch(Intent(i.intent, None, None, None))
    ensures !Dispatch(i).Single? && !Dispatch(i).Fallback?
    ensures i.intent == Some("system_check") ==> Dispatch(i) == Check(CheckReply)
  {
  }

  /** Classifier output that is missing, unparsable or not an object falls
      through to the chatbot; only the text `null` ends in the 500 answer. */
  lemma ParseFallbackReachesChatbot(chatbot: Option<string>)
    ensures Post(Some(SyntaxError), chatbot) == Chat(ChatReply(chatbot))
    ensures Post(None, chatbot) == Chat(ChatReply(chatbot))
    ensures Post(Some(ParsedOther), chatbot) == Chat(ChatReply(chatbot))
    ensures Post(Some(ParsedNull), chatbot) == InternalError
    ensures !Truthy(chatbot) ==> ChatReply(chatbot) == "\U{2026}"
  {
    var none := Intent(Some("none"), None, None, None);
    assert DetectIntent(Some(SyntaxError)) == ParsedObject(none);
    assert !IsScenarioIntent(none.intent) by {
      assert "none"[0] == 'n';
    }
    assert Dispatch(none) == Fallback;
    assert Dispatch(NoFields) == Fallback;
  }

  /** The chatbot's completion matters only when the answer is the chatbot's. */
  lemma ChatbotOnlyOnFallback(classified: Option<ParseOutcome>, c1: Option<string>, c2: Option<string>)
    ensures Post(classified, c1) != Post(classified, c2) ==> Post(classified, c1).Chat? && Post(classified, c2).Chat?
  {
  }
}

=== FILE: consistency.dfy ===
/** How the whitelist of src/config/devices.ts and the controller of
    src/services/yic_control.py agree when both read the same defaults. */
module Consistency {
  import opened Base
  import opened Objects
  import opened Defaults
  import Whitelist
  import opened Controller

  /** A whitelisted (device, action) pair is one the controller knows: the
      device is in its defaults and the default-payload lookup finds a key.
      When that payload is non-empty and the command line is otherwise valid,
      the controller resolves without overrides and sends that payload. */
  lemma WhitelistedPairResolves(args: Args, defaults: Table, w: Whitelist.List)
    requires Whitelist.Derive(defaults) == Some(w)
    requires Whitelist.Permits(w, args.device, args.action)
    ensures args.device in Keys(defaults)
    ensures DefaultPayload(ConfigFor(defaults, args.device), args.action).Some?
    ensures args.parity in ParityLetters && !Truthy(args.payload) &&
            DefaultPayload(ConfigFor(defaults, args.device), args.action).value != "" ==>
              Resolve(args, defaults).Resolved? &&
              Resolve(args, defaults).settings.payload ==
                DefaultPayload(ConfigFor(defaults, args.device), args.action).value
  {
    Whitelist.PermitsIffPayloadKey(defaults, args.device, args.action);
  }
}

=== FILE: controller.dfy ===
/** The serial-port controller src/services/yic_control.py: argument
    validation, parameter resolution against the device defaults, and the
    single JSON line it prints with its exit status. Opening and writing the
    serial port is not modelled; whether it raised, and with which message,
    is an input. */
module Controller {
  import opened Base
  import opened Objects
  import opened Defaults

  /** The parsed command line. Options left unset are None. */
  datatype Args = Args(
    device: string,
    action: string,
    payload: Option<string>,
    port: Option<string>,
    baud: Option<int>,
    bytesize: int,        // default 8
    parity: string,       // default "N"
    stopbits: real)       // default 1.0

  datatype Parity = ParityNone | ParityEven | ParityOdd | ParityMark | ParitySpace

  datatype Bytesize = EightBits | Bits(n: int)

  datatype Stopbits = StopbitsOne | StopbitsTwo

  /** Everything handed to the serial port. */
  datatype Settings = Settings(
    port: Option<string>,
    baudrate: int,
    bytesize: Bytesize,
    parity: Parity,
    stopbits: Stopbits,
    timeout: int,
    payload: string)

  /** A value of the printed JSON line. */
  datatype Json = JBool(b: bool) | JStr(s: string) | JInt(i: int) | JNull

  /** The printed JSON object, keys in `json.dumps` order. */
  type Line = Entries<Json>

  /** What the process leaves behind: at most one stdout line and its exit status. */
  datatype Exit = Exit(stdout: Option<Line>, code: int)

  /** Outcome of the checks before the port is touched. */
  datatype Resolution =
    | UsageError              // argparse refused the command line
    | Rejected(error: string) // an `{ok: false, error}` line, exit 1
    | Resolved(settings: Settings)

  const DefaultBaudrate := 38400
  const PortTimeout := 1
  const ParityLetters := ["N", "E", "O", "M", "S"]

  /** The `--parity` choices and their mapping to the port's parity modes. */
  function ParseParity(letter: string): (r: Option<Parity>)
    ensures r.Some? <==> letter in ParityLetters
    ensures r.Some? ==> ParityLetter(r.value) == letter
  {
    if letter == "N" then Some(ParityNone)
    else if letter == "E" then Some(ParityEven)
    else if letter == "O" then Some(ParityOdd)
    else if letter == "M" then Some(ParityMark)
    else if letter == "S" then Some(ParitySpace)
    else None
  }

  /** The command-line letter that selects each parity mode. */
  function ParityLetter(p: Parity): string {
    match p
    case ParityNone => "N"
    case ParityEven => "E"
    case ParityOdd => "O"
    case ParityMark => "M"
    case ParitySpace => "S"
  }

  /** Every parity mode is reachable from exactly one letter. */
  lemma ParityLetterRoundTrip(p: Parity)
    ensures ParseParity(ParityLetter(p)) == Some(p)
  {
  }

  function SelectBytesize(b: int): (r: Bytesize)
    ensures r == EightBits <==> b == 8
    ensures r.Bits? ==> r.n == b
  {
    if b == 8 then EightBits else Bits(b)
  }

  function SelectStopbits(s: real): (r: Stopbits)
    ensures r == StopbitsOne <==> s == 1.0
  {
    if s == 1.0 then StopbitsOne else StopbitsTwo
  }

  function UnknownDeviceError(device: string): string {
    "Unknown device '" + device + "' and no overrides provided"
  }

  function NoPayloadError(action: string, device: string): string {
    "No payload for action '" + action + "' on '" + device + "'"
  }

  /** `DEVICE_DEFAULTS.get(device, {})`. */
  function ConfigFor(defaults: Table, device: string): (cfg: DeviceConfig)
    ensures device !in Keys(defaults) ==> cfg == EmptyConfig
    ensures device in Keys(defaults) ==> (device, cfg) in defaults
  {
    GetFound(defaults, device);
    Get(defaults, device).GetOr(EmptyConfig)
  }

  /** `(cfg.get("payloads") or {}).get(action)`. */
  function DefaultPayload(cfg: DeviceConfig, action: string): (r: Option<string>)
    ensures r.Some? <==> cfg.payloads.Some? && action in Keys(cfg.payloads.value)
    ensures r.Some? ==> (action, r.value) in cfg.payloads.value
  {
    match cfg.payloads
    case None => None
    case Some(p) => GetFound(p, action); Get(p, action)
  }

  /** The checks and resolution steps of `main()` before the port is opened. */
  function Resolve(args: Args, defaults: Table): (r: Resolution)
    ensures r.UsageError? <==> args.parity !in ParityLetters
    ensures r.Resolved? ==> r.settings.payload != ""
    ensures r.Resolved? ==> ParityLetter(r.settings.parity) == args.parity
    ensures r.Resolved? <==>
              args.parity in ParityLetters &&
              (args.device in Keys(defaults) || (Truthy(args.port) && Truthy(args.payload))) &&
              (Truthy(args.payload) || Truthy(DefaultPayload(ConfigFor(defaults, args.device), args.action)))
    ensures r.Resolved? ==>
              r.settings.bytesize == SelectBytesize(args.bytesize) &&
              r.settings.stopbits == SelectStopbits(args.stopbits) &&
              r.settings.timeout == PortTimeout
  {
    match ParseParity(args.parity)
    case None => UsageError
    case Some(parity) =>
      if args.device !in Keys(defaults) && (!Truthy(args.port) || !Truthy(args.payload)) then
        Rejected(UnknownDeviceError(args.device))
      else
        var cfg := ConfigFor(defaults, args.device);
        var port := if Truthy(args.port) then args.port else cfg.port;
        var baudrate := if TruthyInt(args.baud) then args.baud.value else cfg.baudrate.GetOr(DefaultBaudrate);
        var payload := if Truthy(args.payload) then args.payload else DefaultPayload(cfg, args.action);
        if !Truthy(payload) then
          Rejected(NoPayloadError(args.action, args.device))
        else
          Resolved(Settings(port, baudrate, SelectBytesize(args.bytesize), parity,
                            SelectStopbits(args.stopbits), PortTimeout, payload.value))
  }

  function PortJson(port: Option<string>): Json {
    match port
    case Some(p) => JStr(p)
    case None => JNull
  }

  /** The five fields every line after resolution echoes. */
  function Echo(args: Args, s: Settings): Line {
    [("device", JStr(args.device)), ("action", JStr(args.action)), ("port", PortJson(s.port)),
     ("baudrate", JInt(s.baudrate)), ("payload", JStr(s.payload))]
  }

  function ErrorLine(error: string): Line {
    [("ok", JBool(false)), ("error", JStr(error))]
  }

  /** The whole of `main()`. `failure` is the message of the exception the
      serial port raised while opening, encoding or writing, if it raised. */
  function Run(args: Args, defaults: Table, failure: Option<string>): (out: Exit)
    ensures out.stdout.None? <==> out.code == 2
    ensures out.stdout.Some? ==> Get(out.stdout.value, "ok") == Some(JBool(out.code == 0))
    ensures Resolve(args, defaults).UsageError? ==> out == Exit(None, 2)
    ensures Resolve(args, defaults).Rejected? ==>
              out == Exit(Some(ErrorLine(Resolve(args, defaults).error)), 1)
    ensures Resolve(args, defaults).Resolved? ==>
              out == Report(args, Resolve(args, defaults).settings, failure)
  {
    match Resolve(args, defaults)
    case UsageError => Exit(None, 2)
    case Rejected(error) => Exit(Some(ErrorLine(error)), 1)
    case Resolved(s) => Report(args, s, failure)
  }

  /** The outcome once the port has been written to (`failure` is None) or
      has raised. */
  function Report(args: Args, s: Settings, failure: Option<string>): (out: Exit)
    ensures out.stdout.Some?
    ensures Get(out.stdout.value, "ok") == Some(JBool(out.code == 0))
    ensures out.code == 0 <==> failure.None?
  {
    match failure
    case None => Exit(Some([("ok", JBool(true))] + Echo(args, s)), 0)
    case Some(error) => Exit(Some(ErrorLine(error) + Echo(args, s)), 1)
  }

  /** A device missing from the defaults is refused unless both `--port` and
      `--payload` are given (and non-empty). */
  lemma UnknownDeviceNeedsOverrides(args: Args, defaults: Table)
    requires args.parity in ParityLetters
    requires args.device !in Keys(defaults)
    ensures Resolve(args, defaults) == Rejected(UnknownDeviceError(args.device))
            <==> !(Truthy(args.port) && Truthy(args.payload))
    ensures Truthy(args.port) && Truthy(args.payload) ==> Resolve(args, defaults).Resolved?
  {
  }

  /** The port is the explicit `--port` when given; otherwise it is the known
      device's default port, which may itself be absent. */
  lemma PortPrecedence(args: Args, defaults: Table)
    requires Resolve(args, defaults).Resolved?
    ensures Truthy(args.port) ==> Resolve(args, defaults).settings.port == args.port
    ensures !Truthy(args.port) ==>
              args.device in Keys(defaults) &&
              Resolve(args, defaults).settings.port == Get(defaults, args.device).value.port
  {
  }

  /** The baud rate is a non-zero `--baud`, else the device's default, else 38400. */
  lemma BaudratePrecedence(args: Args, defaults: Table)
    requires Resolve(args, defaults).Resolved?
    ensures var b := Resolve(args, defaults).settings.baudrate;
            if TruthyInt(args.baud) then b == args.baud.value
            else if args.device in Keys(defaults) && Get(defaults, args.device).value.baudrate.Some?
            then b == Get(defaults, args.device).value.baudrate.value
            else b == DefaultBaudrate
  {
  }

  /** A resolved payload is the explicit `--payload`, or else the non-empty
      default stored under the action for a known device. */
  lemma PayloadPrecedence(args: Args, defaults: Table)
    requires Resolve(args, defaults).Resolved?
    ensures var p := Resolve(args, defaults).settings.payload;
            if Truthy(args.payload) then p == args.payload.value
            else args.device in Keys(defaults) &&
                 DefaultPayload(Get(defaults, args.device).value, args.action) == Some(p)
  {
  }

  /** The "No payload" refusal happens exactly for a known device with no
      `--payload` whose defaults hold no non-empty payload for the action. */
  lemma NoPayloadRejection(args: Args, defaults: Table)
    requires args.parity in ParityLetters
    ensures Resolve(args, defaults) == Rejected(NoPayloadError(args.action, args.device))
            <==> args.device in Keys(defaults) && !Truthy(args.payload) &&
                 !Truthy(DefaultPayload(Get(defaults, args.device).value, args.action))
  {
    assert UnknownDeviceError(args.device)[0] == 'U';
    assert NoPayloadError(args.action, args.device)[0] == 'N';
  }

  /** A refusal before the port is opened does not depend on the port: the
      serial write is never attempted. */
  lemma RefusalTouchesNoPort(args: Args, defaults: Table, f1: Option<string>, f2: Option<string>)
    requires !Resolve(args, defaults).Resolved?
    ensures Run(args, defaults, f1) == Run(args, defaults, f2)
    ensures Run(args, defaults, f1).code != 0
  {
  }

  /** The echoed fields can be read back by name. */
  lemma EchoFields(args: Args, s: Settings)
    ensures Get(Echo(args, s), "device") == Some(JStr(args.device))
    ensures Get(Echo(args, s), "action") == Some(JStr(args.action))
    ensures Get(Echo(args, s), "port") == Some(PortJson(s.port))
    ensures Get(Echo(args, s), "baudrate") == Some(JInt(s.baudrate))
    ensures Get(Echo(args, s), "payload") == Some(JStr(s.payload))
  {
    var e4 := [("payload", JStr(s.payload))];
    var e3 := [("baudrate", JInt(s.baudrate))] + e4;
    var e2 := [("port", PortJson(s.port))] + e3;
    var e1 := [("action", JStr(args.action))] + e2;
    assert Echo(args, s) == [("device", JStr(args.device))] + e1;
    assert "device"[0] != "action"[0];
    GetCons("device", JStr(args.device), e1, "device");
    GetCons("device", JStr(args.device), e1, "action");
    GetCons("device", JStr(args.device), e1, "port");
    GetCons("device", JStr(args.device), e1, "baudrate");
    GetCons("device", JStr(args.device), e1, "payload");
    GetCons("action", JStr(args.action), e2, "action");
    GetCons("action", JStr(args.action), e2, "port");
    GetCons("action", JStr(args.action), e2, "baudrate");
    GetCons("action", JStr(args.action), e2, "payload");
    GetCons("port", PortJson(s.port), e3, "port");
    GetCons("port", PortJson(s.port), e3, "baudrate");
    GetCons("port", PortJson(s.port), e3, "payload");
    GetCons("baudrate", JInt(s.baudrate), e4, "baudrate");
    GetCons("baudrate", JInt(s.baudrate), e4, "payload");
    GetCons("payload", JStr(s.payload), [], "payload");
  }

  /** The keys of a line that ends in the echo. */
  lemma EchoKeys(args: Args, s: Settings, head: Line)
    ensures Keys(head + Echo(args, s)) == Keys(head) + ["device", "action", "port", "baudrate", "payload"]
  {
  }

  /** The keys of every line after resolution, in order: `ok`, then `error`
      on a failure, then the five echoed fields. */
  lemma ReportKeys(args: Args, s: Settings, failure: Option<string>)
    ensures Keys(Report(args, s, failure).stdout.value) ==
            (if failure.None? then ["ok"] else ["ok", "error"]) +
            ["device", "action", "port", "baudrate", "payload"]
  {
    match failure
    case None => EchoKeys(args, s, [("ok", JBool(true))]);
    case Some(error) => EchoKeys(args, s, ErrorLine(error));
  }

  /** The error text of a failure line can be read back. */
  lemma ErrorField(error: string, rest: Line)
    ensures Get(ErrorLine(error) + rest, "error") == Some(JStr(error))
  {
    assert ErrorLine(error) + rest == [("ok", JBool(false))] + ([("error", JStr(error))] + rest);
    GetCons("ok", JBool(false), [("error", JStr(error))] + rest, "error");
    GetCons("error", JStr(error), rest, "error");
  }

  /** Fields placed in front of the echo, keyed "ok" and "error", hide none of it. */
  lemma EchoAfterHead(args: Args, s: Settings, head: Line)
    requires forall i :: 0 <= i < |head| ==> head[i].0 == "ok" || head[i].0 == "error"
    ensures var line := head + Echo(args, s);
            && Get(line, "device") == Some(JStr(args.device))
            && Get(line, "action") == Some(JStr(args.action))
            && Get(line, "port") == Some(PortJson(s.port))
            && Get(line, "baudrate") == Some(JInt(s.baudrate))
            && Get(line, "payload") == Some(JStr(s.payload))
  {
    EchoFields(args, s);
    SkipHead(head, Echo(args, s), "device");
    SkipHead(head, Echo(args, s), "action");
    SkipHead(head, Echo(args, s), "port");
    SkipHead(head, Echo(args, s), "baudrate");
    SkipHead(head, Echo(args, s), "payload");
  }

  /** A head keyed only "ok" and "error" hides no key that starts with
      another letter. */
  lemma SkipHead(head: Line, rest: Line, key: string)
    requires forall i :: 0 <= i < |head| ==> head[i].0 == "ok" || head[i].0 == "error"
    requires |key| > 0 && key[0] != 'o' && key[0] != 'e'
    ensures Get(head + rest, key) == Get(rest, key)
  {
    forall i | 0 <= i < |head|
      ensures head[i].0 != key
    {
      assert head[i].0[0] == 'o' || head[i].0[0] == 'e';
    }
    GetSkip(head, rest, key);
  }

  /** Success prints `ok: true` and the five resolved fields, exit status 0. */
  lemma SuccessLine(args: Args, s: Settings)
    ensures var out := Report(args, s, None);
            && out.code == 0
            && Get(out.stdout.value, "device") == Some(JStr(args.device))
            && Get(out.stdout.value, "action") == Some(JStr(args.action))
            && Get(out.stdout.value, "port") == Some(PortJson(s.port))
            && Get(out.stdout.value, "baudrate") == Some(JInt(s.baudrate))
            && Get(out.stdout.value, "payload") == Some(JStr(s.payload))
  {
    assert Report(args, s, None).stdout.value == [("ok", JBool(true))] + Echo(args, s);
    EchoAfterHead(args, s, [("ok", JBool(true))]);
  }

  /** A port failure prints `ok: false`, the exception text and the same five
      fields, exit status 1. */
  lemma PortFailureLine(args: Args, s: Settings, error: string)
    ensures var out := Report(args, s, Some(error));
            && out.code == 1
            && Get(out.stdout.value, "error") == Some(JStr(error))
            && Get(out.stdout.value, "device") == Some(JStr(args.device))
            && Get(out.stdout.value, "action") == Some(JStr(args.action))
            && Get(out.stdout.value, "port") == Some(PortJson(s.port))
            && Get(out.stdout.value, "baudrate") == Some(JInt(s.baudrate))
            && Get(out.stdout.value, "payload") == Some(JStr(s.payload))
  {
    var head := [("ok", JBool(false)), ("error", JStr(error))];
    assert head == ErrorLine(error);
    EchoAfterHead(args, s, head);
    ErrorField(error, Echo(args, s));
  }

  /** A refusal line is exactly `{ok: false, error}` with exit status 1. */
  lemma RefusalLineShape(args: Args, defaults: Table, failure: Option<string>)
    requires Resolve(args, defaults).Rejected?
    ensures var out := Run(args, defaults, failure);
            && out.code == 1
            && out.stdout.Some?
            && Keys(out.stdout.value) == ["ok", "error"]
            && Get(out.stdout.value, "error") == Some(JStr(Resolve(args, defaults).error))
  {
    var line := Run(args, defaults, failure).stdout.value;
    GetFindsEntry(line, 1);
  }

  /** With `--port`, `--payload` and a non-zero `--baud` all given, the
      defaults play no part in the outcome. */
  lemma FullOverridesIgnoreDefaults(args: Args, d1: Table, d2: Table, failure: Option<string>)
    requires Truthy(args.port) && Truthy(args.payload) && TruthyInt(args.baud)
    ensures Run(args, d1, failure) == Run(args, d2, failure)
  {
  }
}

=== FILE: device_defaults.dfy ===
/** The shape of device_defaults.json, which the controller reads at start-up
    and the whitelist is derived from. The file itself is not part of this
    model: both components take its contents as a given table. */
module Defaults {
  import opened Base
  import opened Objects

  /** One device's defaults. A key absent from the JSON object is None. */
  datatype DeviceConfig = DeviceConfig(
    port: Option<string>,
    baudrate: Option<int>,
    payloads: Option<Entries<string>>)   // action name -> payload text

  /** Device name -> defaults, in file order. */
  type Table = Entries<DeviceConfig>

  /** The `{}` the controller falls back to for a device missing from the table. */
  const EmptyConfig := DeviceConfig(None, None, None)
}

=== FILE: objects.dfy ===
/** JSON objects and Python dictionaries as ordered lists of entries: both
    enumerate their keys in insertion order, which the whitelist preserves. */
module Objects {
  import opened Base

  /** An object's (key, value) entries in enumeration order. */
  type Entries<V> = seq<(string, V)>

  /** The object's keys, in order (`Object.keys`, `dict.keys()`). */
  function Keys<V>(e: Entries<V>): (ks: seq<string>)
    ensures |ks| == |e|
    ensures forall i :: 0 <= i < |e| ==> ks[i] == e[i].0
  {
    if |e| == 0 then [] else [e[0].0] + Keys(e[1..])
  }

  /** A well-formed object: no key occurs twice. */
  ghost predicate DistinctKeys<V>(e: Entries<V>) {
    forall i, j :: 0 <= i < j < |e| ==> e[i].0 != e[j].0
  }

  /** No value occurs under two keys. */
  ghost predicate DistinctValues<V>(e: Entries<V>) {
    forall i, j :: 0 <= i < j < |e| ==> e[i].1 != e[j].1
  }

  /** Property lookup (`o[k]`, `d.get(k)`): the value stored under `k`, or
      None when the key is absent. */
  function Get<V>(e: Entries<V>, k: string): (r: Option<V>)
    ensures r.None? <==> k !in Keys(e)
  {
    if |e| == 0 then None
    else if e[0].0 == k then Some(e[0].1)
    else Get(e[1..], k)
  }

  /** The first key whose value equals `v` (`Object.keys(o).find(k => o[k] === v)`). */
  function KeyOf<V(==)>(e: Entries<V>, v: V): (r: Option<string>)
    ensures r.None? <==> forall i :: 0 <= i < |e| ==> e[i].1 != v
    ensures r.Some? ==> exists i :: 0 <= i < |e| && e[i] == (r.value, v)
  {
    if |e| == 0 then None
    else if e[0].1 == v then Some(e[0].0)
    else
      var r := KeyOf(e[1..], v);
      assert r.Some? ==> exists i :: 0 <= i < |e[1..]| && e[1..][i] == (r.value, v);
      r
  }

  /** A value found by lookup is stored under the key it was looked up by. */
  lemma {:induction false} GetFound<V>(e: Entries<V>, k: string)
    ensures Get(e, k).Some? ==> (k, Get(e, k).value) in e
  {
    if |e| > 0 && e[0].0 != k {
      GetFound(e[1..], k);
    }
  }

  /** Lookup in an object whose first entry is known. */
  lemma GetCons<V>(k: string, v: V, rest: Entries<V>, key: string)
    ensures Get([(k, v)] + rest, key) == if k == key then Some(v) else Get(rest, key)
  {
    assert ([(k, v)] + rest)[1..] == rest;
  }

  /** Entries with other keys in front do not change a lookup. */
  lemma {:induction false} GetSkip<V>(prefix: Entries<V>, rest: Entries<V>, key: string)
    requires forall i :: 0 <= i < |prefix| ==> prefix[i].0 != key
    ensures Get(prefix + rest, key) == Get(rest, key)
  {
    if |prefix| > 0 {
      assert prefix + rest == [prefix[0]] + (prefix[1..] + rest);
      GetCons(prefix[0].0, prefix[0].1, prefix[1..] + rest, key);
      GetSkip(prefix[1..], rest, key);
    } else {
      assert prefix + rest == rest;
    }
  }

  /** Lookup finds the first entry carrying a key. */
  lemma {:induction false} GetFirstEntry<V>(e: Entries<V>, i: nat)
    requires i < |e|
    requires forall j :: 0 <= j < i ==> e[j].0 != e[i].0
    ensures Get(e, e[i].0) == Some(e[i].1)
  {
    if i > 0 {
      assert e[0].0 != e[i].0;
      assert e[1..][i - 1] == e[i];
      forall j | 0 <= j < i - 1
        ensures e[1..][j].0 != e[1..][i - 1].0
      {
        assert e[1..][j] == e[j + 1];
      }
      GetFirstEntry(e[1..], i - 1);
    }
  }

  /** In a well-formed object, looking up a present key finds its own value. */
  lemma GetFindsEntry<V>(e: Entries<V>, i: nat)
    requires DistinctKeys(e)
    requires i < |e|
    ensures Get(e, e[i].0) == Some(e[i].1)
  {
    GetFirstEntry(e, i);
  }

  /** When values are distinct, the reverse lookup of an entry's value finds
      exactly that entry's key. */
  lemma {:induction false} KeyOfFindsEntry<V>(e: Entries<V>, i: nat)
    requires DistinctValues(e)
    requires i < |e|
    ensures KeyOf(e, e[i].1) == Some(e[i].0)
  {
    if i > 0 {
      assert e[0].1 != e[i].1;
      assert e[1..][i - 1] == e[i];
      KeyOfFindsEntry(e[1..], i - 1);
    }
  }
}

=== FILE: text.dfy ===
/** String helpers the chat route relies on: JavaScript's
    `String.prototype.replace` with a one-character string pattern, and the
    decimal rendering of an integer in a template literal. */
module Text {
  import opened Base

  /** `s.replace(from, to)` for a one-character string pattern: only the
      FIRST occurrence is replaced. */
  function ReplaceFirst(s: string, from: char, to: char): (r: string)
    ensures |r| == |s|
    ensures from !in s ==> r == s
    ensures forall k :: 0 <= k < |s| ==> r[k] == s[k] || (s[k] == from && r[k] == to)
  {
    if |s| == 0 then s
    else if s[0] == from then [to] + s[1..]
    else [s[0]] + ReplaceFirst(s[1..], from, to)
  }

  /** Only the first occurrence changes: a position is rewritten exactly when
      it holds `from` and no earlier position does. */
  lemma {:induction false} ReplaceFirstOnlyFirst(s: string, from: char, to: char, k: nat)
    requires k < |s|
    ensures ReplaceFirst(s, from, to)[k] == if s[k] == from && from !in s[..k] then to else s[k]
  {
    var r := ReplaceFirst(s, from, to);
    if k == 0 {
      assert s[..k] == [];
    } else if s[0] == from {
      assert r == [to] + s[1..];
      assert s[..k][0] == from;
    } else {
      var t := s[1..];
      ReplaceFirstOnlyFirst(t, from, to, k - 1);
      assert r == [s[0]] + ReplaceFirst(t, from, to);
      assert t[k - 1] == s[k];
      assert s[..k] == [s[0]] + t[..k - 1];
      assert from in s[..k] <==> from in t[..k - 1];
    }
  }

  /** `c` occurs at most once in `s`. */
  predicate AtMostOnce(s: string, c: char) {
    forall j, k :: 0 <= j < k < |s| && s[j] == c ==> s[k] != c
  }

  /** Replacing the first occurrence removes the character entirely exactly
      when it occurred at most once. */
  lemma {:induction false} ReplaceFirstClears(s: string, from: char, to: char)
    requires from != to
    ensures from !in ReplaceFirst(s, from, to) <==> AtMostOnce(s, from)
  {
    if |s| > 0 {
      if s[0] == from {
        assert ReplaceFirst(s, from, to) == [to] + s[1..];
        AtMostOnceHead(s, from);
      } else {
        ReplaceFirstClears(s[1..], from, to);
        assert ReplaceFirst(s, from, to) == [s[0]] + ReplaceFirst(s[1..], from, to);
        AtMostOnceTail(s, from);
      }
    }
  }

  /** A string starting with `c` has `c` at most once iff its tail lacks `c`. */
  lemma AtMostOnceHead(s: string, c: char)
    requires |s| > 0 && s[0] == c
    ensures AtMostOnce(s, c) <==> c !in s[1..]
  {
    if c in s[1..] {
      var k :| 0 <= k < |s[1..]| && s[1..][k] == c;
      assert s[k + 1] == c;
    }
  }

  /** A string not starting with `c` has `c` at most once iff its tail does. */
  lemma AtMostOnceTail(s: string, c: char)
    requires |s| > 0 && s[0] != c
    ensures AtMostOnce(s, c) <==> AtMostOnce(s[1..], c)
  {
    if AtMostOnce(s[1..], c) {
      forall j, k | 0 <= j < k < |s| && s[j] == c
        ensures s[k] != c
      {
        assert s[1..][j - 1] == s[j] && s[1..][k - 1] == s[k];
      }
    } else {
      var j, k :| 0 <= j < k < |s[1..]| && s[1..][j] == c && s[1..][k] == c;
      assert s[j + 1] == c && s[k + 1] == c;
    }
  }

  predicate StartsWith(s: string, prefix: string) {
    |prefix| <= |s| && s[..|prefix|] == prefix
  }

  predicate EndsWith(s: string, suffix: string) {
    |suffix| <= |s| && s[|s| - |suffix|..] == suffix
  }

  lemma StartsWithConcat(p: string, q: string)
    ensures StartsWith(p + q, p)
  {
    assert (p + q)[..|p|] == p;
  }

  predicate IsDigit(c: char) {
    '0' <= c <= '9'
  }

  function DigitChar(d: nat): (c: char)
    requires d < 10
    ensures IsDigit(c)
  {
    ('0' as int + d) as char
  }

  function DigitValue(c: char): (d: nat)
    requires IsDigit(c)
    ensures d < 10
  {
    c as int - '0' as int
  }

  /** Every character is a decimal digit. */
  predicate AllDigits(s: string) {
    forall i :: 0 <= i < |s| ==> IsDigit(s[i])
  }

  /** Decimal digits of a natural number, most significant first, without
      leading zeros. */
  function Digits(n: nat): (s: string)
    ensures 1 <= |s|
    ensures AllDigits(s)
    ensures s[0] == '0' <==> n == 0
    ensures 1 < |s| ==> s[0] != '0'
    decreases n
  {
    if n < 10 then [DigitChar(n)] else Digits(n / 10) + [DigitChar(n % 10)]
  }

  /** The number a string of decimal digits denotes. */
  function DigitsValue(s: string): nat
    requires AllDigits(s)
  {
    if |s| == 0 then 0 else DigitsValue(s[..|s| - 1]) * 10 + DigitValue(s[|s| - 1])
  }

  /** The decimal rendering of an exact integer, as `${n}` in a JavaScript
      template literal gives it for integer-valued numbers up to 2^53; larger
      doubles are rendered differently (see README). */
  function Decimal(n: int): (s: string)
    ensures 1 <= |s|
    ensures s[0] == '-' <==> n < 0
    ensures s[0] == '0' ==> s == "0"
    ensures s[0] == '-' ==> 2 <= |s| && s[1] != '0'
  {
    if n < 0 then "-" + Digits(-n) else Digits(n)
  }

  /** Reads an optional minus sign followed by decimal digits. */
  function ParseDecimal(s: string): Option<int> {
    if |s| == 0 then None
    else if s[0] == '-' then
      (if 1 < |s| && AllDigits(s[1..]) then Some(0 - DigitsValue(s[1..]) as int) else None)
    else if AllDigits(s) then Some(DigitsValue(s) as int)
    else None
  }

  lemma {:induction false} DigitsRoundTrip(n: nat)
    ensures DigitsValue(Digits(n)) == n
    decreases n
  {
    if n >= 10 {
      var s := Digits(n);
      assert s[..|s| - 1] == Digits(n / 10);
      DigitsRoundTrip(n / 10);
    }
  }

  /** The decimal rendering loses nothing: the number can be read back. */
  lemma DecimalRoundTrip(n: int)
    ensures ParseDecimal(Decimal(n)) == Some(n)
  {
    if n < 0 {
      var d := Digits(-n);
      var s := "-" + d;
      assert s == Decimal(n);
      assert s[0] == '-' && s[1..] == d;
      DigitsRoundTrip(-n);
      assert ParseDecimal(s) == Some(0 - DigitsValue(d) as int);
    } else {
      DigitsRoundTrip(n);
    }
  }

  lemma EndsWithConcat(p: string, q: string)
    ensures EndsWith(p + q, q)
  {
    assert (p + q)[|p + q| - |q|..] == q;
  }

  /** Whether `x + n` ends with `suffix` is decided by `n` alone when `n` is
      at least as long as `suffix`. */
  lemma EndsWithTail(x: string, n: string, suffix: string)
    requires |suffix| <= |n|
    ensures EndsWith(x + n, suffix) <==> EndsWith(n, suffix)
  {
    assert (x + n)[|x + n| - |suffix|..] == n[|n| - |suffix|..];
  }

  /** A suffix of a suffix is a suffix. */
  lemma EndsWithTrans(s: string, long: string, short: string)
    requires EndsWith(long, short)
    ensures EndsWith(s, long) ==> EndsWith(s, short)
  {
    if EndsWith(s, long) {
      assert s[|s| - |short|..] == long[|long| - |short|..];
    }
  }
}

=== FILE: whitelist.dfy ===
/** The device/action whitelist of src/config/devices.ts: every device of the
    defaults, carrying only the names of its payloads as its actions. */
module Whitelist {
  import opened Base
  import opened Objects
  import opened Defaults

  /** A whitelist entry carries nothing but the action names. */
  datatype Entry = Entry(actions: seq<string>)

  /** Device name -> permitted actions. */
  type List = Entries<Entry>

  /** Every device of the defaults has a `payloads` object. */
  ghost predicate AllHavePayloads(defaults: Table) {
    forall i :: 0 <= i < |defaults| ==> defaults[i].1.payloads.Some?
  }

  /** `Object.fromEntries(Object.entries(defaults).map(...))`. `Object.keys`
      throws on a missing `payloads`, which makes the module fail to load:
      that is the None result. */
  function Derive(defaults: Table): (w: Option<List>)
    ensures w.Some? <==> AllHavePayloads(defaults)
    ensures w.Some? ==> Keys(w.value) == Keys(defaults)
    ensures w.Some? ==> forall i :: 0 <= i < |defaults| ==>
              w.value[i].1.actions == Keys(defaults[i].1.payloads.value)
  {
    if |defaults| == 0 then Some([])
    else
      match defaults[0].1.payloads
      case None => None
      case Some(p) =>
        match Derive(defaults[1..])
        case None =>
          None
        case Some(rest) =>
          Some([(defaults[0].0, Entry(Keys(p)))] + rest)
  }

  /** Whether the whitelist lets `device` perform `action`. */
  predicate Permits(w: List, device: string, action: string) {
    match Get(w, device)
    case Some(e) => action in e.actions
    case None => false
  }

  /** Whether the defaults hold a payload under `action` for `device`. */
  predicate HasPayloadKey(defaults: Table, device: string, action: string) {
    match Get(defaults, device)
    case Some(cfg) => cfg.payloads.Some? && action in Keys(cfg.payloads.value)
    case None => false
  }

  /** The whitelist permits exactly the (device, action) pairs the defaults
      carry a payload key for: no action is invented and none dropped. */
  lemma {:induction false} PermitsIffPayloadKey(defaults: Table, device: string, action: string)
    requires Derive(defaults).Some?
    ensures Permits(Derive(defaults).value, device, action) <==> HasPayloadKey(defaults, device, action)
  {
    if |defaults| > 0 {
      var p := defaults[0].1.payloads.value;
      var rest := Derive(defaults[1..]).value;
      assert Derive(defaults).value == [(defaults[0].0, Entry(Keys(p)))] + rest;
      if defaults[0].0 != device {
        PermitsIffPayloadKey(defaults[1..], device, action);
      }
    }
  }
}
